=== FILE: README.md ===
# Projectile-motion engine, modelled in Dafny

This project models the engine of a projectile-motion teaching game. The
player chooses a launch angle (degrees), a launch speed and a gravity; the
engine computes the closed-form theory of the launch (flight time, range,
peak height), samples a reference trajectory, and then advances the flight
frame by frame, evaluating the position in closed form at the accumulated
time. A flight ends with a mid-air hit on the target, a landing inside the
target's footprint (a hit), or a landing elsewhere (a miss). A hit raises
the level and the success count and draws a new target.

- `physics.dfy`, module `Physics`: the points, targets and theory records;
  `Clamp`; the closed-form theory `ComputeTheory`; the sampler
  `BuildPrediction` (a loop with an early exit, proved equal to the
  recursive specification `Prediction`); `CalculateVelocityAtTime`;
  `DeriveScale`; `IsPointInsideTarget`; and the kinematic facts relating
  them.
- `simulation_store.dfy`, module `SimulationStore`: the session store as a
  class `Store` whose fields are the store's fields, with the setters,
  `Launch`, `Reset` and `StepSimulation` as methods that update them in
  place. `Valid()` is the store's invariant (parameters in range,
  `level == success + 1`, a generated target, time 0 outside a flight given
  a positive sine, no trail, prediction or projectile point below ground). `Animate` is the animation driver: one
  step per frame while the flight lasts.

Numbers are exact reals. Sine and cosine of an angle in degrees are
supplied as a `Trig` value; where a property needs trigonometry it is
stated as a precondition (`SinePositiveOnHalfTurn`, `DoubleAngleAt`).

Behaviour of the code worth noting:
- A step evaluates the height with the store's current gravity
  (`src/state/useSimulationStore.ts:123`, `136`), and the parameter controls
  stay enabled during a flight. The theory and the step then disagree if
  gravity is changed mid-flight; the end-of-flight guarantee of `Animate` is
  therefore stated for a theory computed with the current parameters.
- The setters keep the parameters in range, and for such parameters the
  vertical launch velocity is positive, so `computeTheory` never rejects
  them and the rejection branch of `launch`
  (`src/state/useSimulationStore.ts:64-71`) cannot be taken. Every other way
  to stop a flight sets `time` to 0 (lines 90 and 157), so outside a flight
  the time is 0. Because sine is abstract here, `Valid()` states this under
  the hypothesis `SinePositiveOnHalfTurn(trig)`; for an arbitrary `Trig` the
  model also takes the rejection branch, which leaves `time` as it was.
- After a flight ends the theory is kept (`src/state/useSimulationStore.ts:159`),
  and `Reset` does not touch `velocity` (`src/state/useSimulationStore.ts:87-96`).

## Model

| member | source | states |
|---|---|---|
| Physics.Clamp | src/lib/physics.ts:29-30 | The result never exceeds `hi`; it is at least `lo` when `lo <= hi`; a value already in range is returned unchanged; values below/above the range give `lo`/`hi`. |
| Physics.ClampIdempotent | src/lib/physics.ts:29-30 | Clamping twice into the same non-empty range equals clamping once. |
| Physics.DecomposeVelocityVector | src/lib/physics.ts:40-49 | Definition: the initial velocity is (speed cos angle, speed sin angle), with the cosine and sine of the angle in degrees taken from `Trig`. |
| Physics.CalculateFlightTime | src/lib/physics.ts:58-60 | Definition: the flight time 2 vy / g, for positive gravity. |
| Physics.CalculateRange | src/lib/physics.ts:67-74 | Definition: the range speed^2 sin(2 angle) / g, for positive gravity. |
| Physics.CalculateMaxHeight | src/lib/physics.ts:83-85 | The peak height is non-negative and satisfies `hMax * 2g == vy^2`. |
| Physics.FlightTimeSign | src/lib/physics.ts:58-60 | For positive gravity the flight time `2 vy / g` is positive exactly when `vy > 0`, and `totalTime * g == 2 vy`. |
| Physics.ComputeTheory | src/lib/physics.ts:94-124 | No theory exactly when gravity <= 0, speed <= 0 or the vertical launch velocity is <= 0 (flight time not positive); otherwise totalTime > 0, range >= 0, hMax >= 0, `totalTime * g == 2 vy`, `hMax * 2g == vy^2`, and the initial velocity is the decomposition of speed and angle. |
| Physics.TheoryRejectsNonPositive | src/lib/physics.ts:99 | Non-positive gravity or speed gives no theory. |
| Physics.TheoryDefinedForValidParameters | src/lib/physics.ts:94-124 | Every parameter triple inside the setters' ranges has a theory, given that sine is positive on (0, 180) degrees. |
| Physics.HeightNonNegativeInFlight | src/lib/physics.ts:146-150 | Between time 0 and the flight time the height `vy t - g t^2 / 2` is never negative. |
| Physics.HeightNonPositiveAfterFlight | src/lib/physics.ts:146-150 | From the flight time on the height is never positive. |
| Physics.FlightTimeReturnsToGround | src/lib/physics.ts:51-60 | At the theory's flight time the height is exactly 0. |
| Physics.MaxHeightIsPeak | src/lib/physics.ts:76-85 | At `t = vy / g` the height equals hMax and the vertical velocity is 0, and no height along the path exceeds hMax. |
| Physics.RangeIsDistanceAtFlightTime | src/lib/physics.ts:62-74 | Given the double-angle identity and a forward launch, the range equals the horizontal position at the flight time. |
| Physics.BuildPrediction | src/lib/physics.ts:134-156 | The loop with early exit returns exactly the reference path `Prediction`. |
| Physics.PredictionIsSamplePrefix | src/lib/physics.ts:142-155 | The path has at most n + 1 points, point k is the sample at `t_k = (k/n) totalTime` and is not below ground, and if the path is shorter than n + 1 the next sample is below ground. |
| Physics.PredictionAboveGround | src/lib/physics.ts:152-153 | No point of the path is below ground. |
| Physics.PredictionStartsAtOrigin | src/lib/physics.ts:142-153 | The path is non-empty and starts at (0, 0). |
| Physics.SampleTimeInFlight | src/lib/physics.ts:143 | Every sample time lies between 0 and the flight time. |
| Physics.PredictionCompleteForLaunchGravity | src/lib/physics.ts:134-156 | With the launch's own gravity all n + 1 samples are kept and the last one is the landing point, at height 0. |
| Physics.CalculateVelocityAtTime | src/lib/physics.ts:164-173 | Definition: the velocity at time t is (initial x, initial y - g t). |
| Physics.VelocityMatchesPosition | src/lib/physics.ts:164-181 | The horizontal velocity stays the initial one, `v_y(t)^2 == vy^2 - 2 g y(t)`, and the squared speed `v_x^2 + v_y^2 == vx^2 + vy^2 - 2 g y(t)`. |
| Physics.DisplacementMatchesVelocity | src/lib/physics.ts:164-173 | The displacement between two times is the elapsed time times the horizontal velocity, and times the mean of the two vertical velocities. |
| Physics.DeriveScale | src/lib/physics.ts:186-199 | The scale always lies in [4, 20]. |
| Physics.DeriveScaleFitsCanvas | src/lib/physics.ts:194-198 | Unless the lower bound 4 is imposed, the scaled `max(range, 10)` and `max(hMax, 5)` fit the usable width and height; unless the upper bound 20 is imposed too, one of them fills its dimension exactly, so the scale is the largest that fits. |
| Physics.IsPointInsideTarget | src/lib/physics.ts:212-216 | Definition: true iff t.x <= x <= t.x + width and 0 <= y <= height. |
| Physics.TargetGroundCornersInside | src/lib/physics.ts:212-216 | For a target with non-negative width and height, (x, 0) and (x + width, 0) are inside it. |
| Physics.OutsideTarget | src/lib/physics.ts:212-216 | A point left or right of the span, below ground or above the height is not inside. |
| SimulationStore.NextTime | src/state/useSimulationStore.ts:115-116 | A step advances time by the elapsed delta, at most 0.04. |
| SimulationStore.Judge | src/state/useSimulationStore.ts:150-155 | A miss exactly when the raw height is <= 0 at a positive time and (x, 0) is outside the target; the flight continues exactly when it has not landed and there is no mid-air hit; a hit lies within the target's span. |
| SimulationStore.LandingInFootprintScores | src/state/useSimulationStore.ts:151-155 | A landing within the span of any target of non-negative height is a hit. |
| SimulationStore.FlightEndsByFlightTime | src/state/useSimulationStore.ts:150-153 | A step that reaches the theory's flight time, with the launch gravity, ends the flight. |
| SimulationStore.Store.constructor | src/state/useSimulationStore.ts:38-54 | Initial store holding the given `Trig`: angle 45, speed 30, gravity 9.8, level 1, success 0, a generated target, not launched, zero time, velocity and projectile, no theory, empty paths, initial message; the invariant holds. |
| SimulationStore.Store.SetAngle | src/state/useSimulationStore.ts:56 | The angle becomes the value clamped into [5, 85]; no other field changes. |
| SimulationStore.Store.SetSpeed | src/state/useSimulationStore.ts:57 | The speed becomes the value clamped into [5, 90]; no other field changes. |
| SimulationStore.Store.SetGravity | src/state/useSimulationStore.ts:58 | The gravity becomes the value clamped into [1, 25]; no other field changes. |
| SimulationStore.Store.Launch | src/state/useSimulationStore.ts:60-85 | Without a theory: not launched, rejection message, everything else unchanged. With one: launched, that theory, the reference path of 60 intervals for the current gravity, time 0, velocity (vx, vy), empty trail, projectile at the origin, running message; target, level, success and parameters unchanged. Launches in the setters' ranges always succeed given positive sine. The invariant is kept. |
| SimulationStore.Store.BeginFlight | src/state/useSimulationStore.ts:73-84 | Enters flight with the given theory and reference path and keeps the invariant. |
| SimulationStore.Store.Reset | src/state/useSimulationStore.ts:87-96 | Not launched, time 0, no theory, empty paths, projectile at the origin, initial message; target, level, success, parameters and velocity unchanged. |
| SimulationStore.Store.StepSimulation | src/state/useSimulationStore.ts:110-185 | No change when not launched. Otherwise the time advances by `NextTime`; the projectile is the position with height clamped at 0; the trail grows by the raw point exactly when its height is >= 0; in flight the velocity is the velocity at the new time; when the flight ends it is not launched, time 0, velocity 0; a hit draws the new target, raises level and success by 1, clears the path and reports a hit; a miss changes nothing else and reports a miss. The invariant, including `level == success + 1`, is kept. |
| SimulationStore.Store.EndFlight | src/state/useSimulationStore.ts:153-170 | Ends the flight: not launched, time 0, velocity 0, and the hit/miss updates of target, level, success, path and message. |
| SimulationStore.Animate | src/hooks/useProjectileAnimation.ts:25-35 | Steps once per frame while launched, for any frame deltas and any launched state; a flight still running has used every frame and its time is the starting time plus the deltas each capped at 0.04 s; level and success rise together by 0 or 1, and a raised level means the flight has ended; the parameters and the theory are unchanged; when the theory was computed with the current parameters and the starting time plus the capped deltas reaches its flight time, the flight has ended. |
| SimulationStore.StepOnce | src/hooks/useProjectileAnimation.ts:26-28 | One frame: the parameters and theory are kept, level and success rise together by 0 or 1, a hit ends the flight, a running flight's time is `NextTime` of the old one, and with a theory computed from the current parameters a running flight has not reached the flight time. |

## Left out

- Trigonometry and the degree-to-radian conversion (`src/lib/physics.ts:32`, `40-49`, `67-74`) are supplied as the `Trig` value; properties needing them take the fact as a precondition.
- `calculateSpeedMagnitude` (`src/lib/physics.ts:179-181`): there is no square root over the reals; `VelocityMatchesPosition` states the squared speed `v_x^2 + v_y^2` instead.
- `generateTarget` (`src/lib/physics.ts:201-210`): the random draw and the rounding to one decimal are not modelled; the step takes the drawn target as a parameter constrained to the generator's range (`IsGeneratedTarget`).
- Floating point: values are exact reals, so the `Number.isFinite` check in `computeTheory`, rounding at a height of exactly 0, and NaN results are not modelled.
- Physics.BuildPrediction: requires at least one sample interval; with 0 intervals the source divides 0 by 0 and pushes a NaN point.
- SimulationStore.Animate: frame times are a given sequence of deltas; `requestAnimationFrame`, `performance.now` and cancellation of the frame callback are not modelled.
- Message strings are the constructors of `ResultText`.
- The React components, the store library's subscription mechanics and the canvas drawing are not part of this model.

=== FILE: physics.dfy ===
/**
 * Kinematics and geometry of the projectile-motion engine: the closed-form
 * theory of a launch, the sampled reference trajectory, the velocity at a
 * given time, the world-to-canvas scale and the target hit test.
 *
 * Numbers are exact `real`s. Trigonometry is not available over the reals,
 * so the sine and cosine of an angle given in degrees are supplied as a
 * `Trig` value (this also absorbs the degree-to-radian conversion).
 */
module Physics {

  datatype Option<T> = None | Some(value: T)

  datatype Point = Point(x: real, y: real)

  /** A velocity has the same shape as a point. */
  type Vector2D = Point

  datatype LaunchParams = LaunchParams(angle: real, speed: real, gravity: real)

  datatype TheoryResult = TheoryResult(
    vx: real,
    vy: real,
    totalTime: real,
    range: real,
    hMax: real,
    initialVelocity: Vector2D)

  /** A target occupies the rectangle [x, x + width] x [0, height]. */
  datatype Target = Target(x: real, width: real, height: real)

  /** Sine and cosine of an angle measured in degrees. */
  datatype Trig = Trig(sinDeg: real -> real, cosDeg: real -> real)

  /** The sine is positive strictly between 0 and 180 degrees. */
  ghost predicate SinePositiveOnHalfTurn(trig: Trig)
  {
    forall a :: 0.0 < a < 180.0 ==> trig.sinDeg(a) > 0.0
  }

  /** The double-angle identity sin(2a) = 2 sin(a) cos(a) at one angle. */
  ghost predicate DoubleAngleAt(trig: Trig, a: real)
  {
    trig.sinDeg(2.0 * a) == 2.0 * trig.sinDeg(a) * trig.cosDeg(a)
  }

  function Min(a: real, b: real): real { if a <= b then a else b }

  function Max(a: real, b: real): real { if a >= b then a else b }

  /** `Math.min(Math.max(value, lo), hi)`. */
  function Clamp(value: real, lo: real, hi: real): (r: real)
    ensures r <= hi
    ensures lo <= hi ==> lo <= r
    ensures lo <= value <= hi ==> r == value
    ensures lo <= hi && value < lo ==> r == lo
    ensures value > hi ==> r == hi
  {
    Min(Max(value, lo), hi)
  }

  lemma ClampIdempotent(value: real, lo: real, hi: real)
    requires lo <= hi
    ensures Clamp(Clamp(value, lo, hi), lo, hi) == Clamp(value, lo, hi)
  {
  }

  // ---------------------------------------------------------------------
  // Closed-form theory

  /** v0x = v0 cos(angle), v0y = v0 sin(angle). */
  function DecomposeVelocityVector(speed: real, angle: real, trig: Trig): Vector2D
  {
    Point(speed * trig.cosDeg(angle), speed * trig.sinDeg(angle))
  }

  /** Time of flight 2 v0y / g. */
  function CalculateFlightTime(vy: real, gravity: real): real
    requires gravity > 0.0
  {
    (2.0 * vy) / gravity
  }

  /** Range v0^2 sin(2 angle) / g. */
  function CalculateRange(speed: real, angle: real, gravity: real, trig: Trig): real
    requires gravity > 0.0
  {
    (speed * speed * trig.sinDeg(2.0 * angle)) / gravity
  }

  /** Peak height v0y^2 / (2 g). */
  function CalculateMaxHeight(vy: real, gravity: real): (h: real)
    requires gravity > 0.0
    ensures h >= 0.0
    ensures h * (2.0 * gravity) == vy * vy
  {
    (vy * vy) / (2.0 * gravity)
  }

  /** Position at time `t` of a projectile launched from the origin. */
  function PositionAt(vx: real, vy: real, gravity: real, t: real): Point
  {
    Point(vx * t, vy * t - 0.5 * gravity * t * t)
  }

  /**
   * The theory of a launch, or `None` when gravity or speed is not positive
   * or the flight time is not positive. With exact reals the flight time is
   * always finite, so the source's finiteness test never fails here.
   */
  function ComputeTheory(p: LaunchParams, trig: Trig): (r: Option<TheoryResult>)
    ensures r.None? <==>
      p.gravity <= 0.0 || p.speed <= 0.0 || DecomposeVelocityVector(p.speed, p.angle, trig).y <= 0.0
    ensures r.Some? ==>
      var th := r.value;
      th.totalTime > 0.0 && th.range >= 0.0 && th.hMax >= 0.0 && th.vy > 0.0 &&
      th.totalTime * p.gravity == 2.0 * th.vy &&
      th.hMax * (2.0 * p.gravity) == th.vy * th.vy &&
      th.initialVelocity == Point(th.vx, th.vy) &&
      th.initialVelocity == DecomposeVelocityVector(p.speed, p.angle, trig)
  {
    if p.gravity <= 0.0 || p.speed <= 0.0 then None
    else
      var initialVelocity := DecomposeVelocityVector(p.speed, p.angle, trig);
      var vx := initialVelocity.x;
      var vy := initialVelocity.y;
      var totalTime := CalculateFlightTime(vy, p.gravity);
      var range := CalculateRange(p.speed, p.angle, p.gravity, trig);
      var hMax := CalculateMaxHeight(vy, p.gravity);
      FlightTimeSign(vy, p.gravity);
      if totalTime <= 0.0 then None
      else Some(TheoryResult(vx, vy, totalTime, Max(range, 0.0), Max(hMax, 0.0), initialVelocity))
  }

  lemma FlightTimeSign(vy: real, gravity: real)
    requires gravity > 0.0
    ensures CalculateFlightTime(vy, gravity) > 0.0 <==> vy > 0.0
    ensures CalculateFlightTime(vy, gravity) * gravity == 2.0 * vy
  {
  }

  /** Every launch whose parameters lie in the setters' ranges has a theory. */
  lemma TheoryDefinedForValidParameters(p: LaunchParams, trig: Trig)
    requires 5.0 <= p.angle <= 85.0 && 5.0 <= p.speed <= 90.0 && 1.0 <= p.gravity <= 25.0
    requires SinePositiveOnHalfTurn(trig)
    ensures ComputeTheory(p, trig).Some?
  {
    assert trig.sinDeg(p.angle) > 0.0;
  }

  /** Non-positive gravity or speed is always rejected. */
  lemma TheoryRejectsNonPositive(p: LaunchParams, trig: Trig)
    requires p.gravity <= 0.0 || p.speed <= 0.0
    ensures ComputeTheory(p, trig) == None
  {
  }

  /** A product of two non-negative reals is non-negative. */
  lemma NonNegativeProduct(a: real, b: real)
    requires a >= 0.0 && b >= 0.0
    ensures a * b >= 0.0
  {
  }

  lemma SquareNonNegative(a: real)
    ensures a * a >= 0.0
  {
    if a < 0.0 {
      NonNegativeProduct(-a, -a);
    } else {
      NonNegativeProduct(a, a);
    }
  }

  /**
   * The height at time t is g t (T - t) / 2 when T is the flight time, so
   * the projectile is on the ground at 0 and T and above it in between.
   */
  lemma HeightFactors(vx: real, vy: real, gravity: real, totalTime: real, t: real)
    requires totalTime * gravity == 2.0 * vy
    ensures PositionAt(vx, vy, gravity, t).y == 0.5 * gravity * (t * (totalTime - t))
  {
    calc {
      PositionAt(vx, vy, gravity, t).y;
      vy * t - 0.5 * gravity * t * t;
      { assert vy == 0.5 * (totalTime * gravity); }
      0.5 * (totalTime * gravity) * t - 0.5 * gravity * t * t;
      0.5 * gravity * (t * (totalTime - t));
    }
  }

  /** Between launch and the flight time the height is never negative. */
  lemma HeightNonNegativeInFlight(vx: real, vy: real, gravity: real, totalTime: real, t: real)
    requires gravity > 0.0 && totalTime * gravity == 2.0 * vy
    requires 0.0 <= t <= totalTime
    ensures PositionAt(vx, vy, gravity, t).y >= 0.0
  {
    HeightFactors(vx, vy, gravity, totalTime, t);
    NonNegativeProduct(t, totalTime - t);
    NonNegativeProduct(0.5 * gravity, t * (totalTime - t));
  }

  /** From the flight time on, the height is never positive: the projectile has landed. */
  lemma HeightNonPositiveAfterFlight(vx: real, vy: real, gravity: real, totalTime: real, t: real)
    requires gravity > 0.0 && totalTime * gravity == 2.0 * vy && totalTime > 0.0
    requires t >= totalTime
    ensures PositionAt(vx, vy, gravity, t).y <= 0.0
  {
    HeightFactors(vx, vy, gravity, totalTime, t);
    NonNegativeProduct(t, t - totalTime);
    NonNegativeProduct(0.5 * gravity, t * (t - totalTime));
  }

  /** The theory's flight time brings the projectile back to the ground. */
  lemma FlightTimeReturnsToGround(p: LaunchParams, trig: Trig)
    requires ComputeTheory(p, trig).Some?
    ensures var th := ComputeTheory(p, trig).value;
      PositionAt(th.vx, th.vy, p.gravity, th.totalTime).y == 0.0
  {
    var th := ComputeTheory(p, trig).value;
    HeightFactors(th.vx, th.vy, p.gravity, th.totalTime, th.totalTime);
  }

  /**
   * hMax is the height reached at t = v0y / g, where the vertical velocity
   * vanishes, and no height along the path exceeds it.
   */
  lemma MaxHeightIsPeak(p: LaunchParams, trig: Trig, t: real)
    requires ComputeTheory(p, trig).Some?
    ensures var th := ComputeTheory(p, trig).value;
      var tUp := th.vy / p.gravity;
      PositionAt(th.vx, th.vy, p.gravity, tUp).y == th.hMax &&
      CalculateVelocityAtTime(th.initialVelocity, tUp, p.gravity).y == 0.0 &&
      PositionAt(th.vx, th.vy, p.gravity, t).y <= th.hMax
  {
    var th := ComputeTheory(p, trig).value;
    PeakAtApexTime(th.vx, th.vy, p.gravity, th.hMax);
    HeightBelowPeak(th.vx, th.vy, p.gravity, th.hMax, t);
  }

  lemma PeakAtApexTime(vx: real, vy: real, gravity: real, hMax: real)
    requires gravity > 0.0 && hMax * (2.0 * gravity) == vy * vy
    ensures PositionAt(vx, vy, gravity, vy / gravity).y == hMax
    ensures CalculateVelocityAtTime(Point(vx, vy), vy / gravity, gravity).y == 0.0
  {
    var tUp := vy / gravity;
    assert tUp * gravity == vy;
    var y := PositionAt(vx, vy, gravity, tUp).y;
    assert y == 0.5 * vy * tUp;
    assert y * (2.0 * gravity) == vy * vy;
    assert (y - hMax) * (2.0 * gravity) == 0.0;
  }

  lemma HeightBelowPeak(vx: real, vy: real, gravity: real, hMax: real, t: real)
    requires gravity > 0.0 && hMax * (2.0 * gravity) == vy * vy
    ensures PositionAt(vx, vy, gravity, t).y <= hMax
  {
    var gap := hMax - PositionAt(vx, vy, gravity, t).y;
    var d := vy - gravity * t;
    assert gap * (2.0 * gravity) == d * d;
    SquareNonNegative(d);
    if gap < 0.0 {
      NonNegativeProduct(-gap, 2.0 * gravity);
      assert false;
    }
  }

  /**
   * When sine and cosine satisfy the double-angle identity, the range is the
   * horizontal distance covered during the flight time.
   */
  lemma RangeIsDistanceAtFlightTime(p: LaunchParams, trig: Trig)
    requires ComputeTheory(p, trig).Some?
    requires DoubleAngleAt(trig, p.angle)
    requires DecomposeVelocityVector(p.speed, p.angle, trig).x >= 0.0
    ensures var th := ComputeTheory(p, trig).value;
      th.range == PositionAt(th.vx, th.vy, p.gravity, th.totalTime).x
  {
    var th := ComputeTheory(p, trig).value;
    var g := p.gravity;
    var s, c := trig.sinDeg(p.angle), trig.cosDeg(p.angle);
    var raw := CalculateRange(p.speed, p.angle, g, trig);
    assert raw * g == p.speed * p.speed * (2.0 * s * c);
    assert th.vx * th.totalTime * g == th.vx * (2.0 * th.vy);
    assert th.vx * (2.0 * th.vy) == p.speed * p.speed * (2.0 * s * c);
    assert raw == th.vx * th.totalTime;
    NonNegativeProduct(th.vx, th.totalTime);
  }

  // ---------------------------------------------------------------------
  // Sampled reference trajectory

  /** No point of the path lies below ground. */
  predicate AboveGround(path: seq<Point>)
  {
    forall k :: 0 <= k < |path| ==> path[k].y >= 0.0
  }

  /** The i-th of n + 1 equally spaced times from 0 to totalTime. */
  function SampleTime(totalTime: real, n: nat, i: nat): real
    requires n > 0
  {
    ((i as real) / (n as real)) * totalTime
  }

  /** The position at the i-th sample time. */
  function Sample(theory: TheoryResult, gravity: real, n: nat, i: nat): Point
    requires n > 0
  {
    PositionAt(theory.vx, theory.vy, gravity, SampleTime(theory.totalTime, n, i))
  }

  /** The samples i, i + 1, ..., n up to (excluding) the first one below ground. */
  function PredictionFrom(theory: TheoryResult, gravity: real, n: nat, i: nat): seq<Point>
    requires n > 0 && i <= n + 1
    decreases n + 1 - i
  {
    if i > n then []
    else if Sample(theory, gravity, n, i).y < 0.0 then []
    else [Sample(theory, gravity, n, i)] + PredictionFrom(theory, gravity, n, i + 1)
  }

  /** The reference path: the samples 0..n that precede the first one below ground. */
  function Prediction(theory: TheoryResult, gravity: real, n: nat): seq<Point>
    requires n > 0
  {
    PredictionFrom(theory, gravity, n, 0)
  }

  /** Builds the reference path with a loop that stops at the first sample below ground. */
  method BuildPrediction(theory: TheoryResult, gravity: real, sampleCount: nat) returns (points: seq<Point>)
    requires sampleCount > 0
    ensures points == Prediction(theory, gravity, sampleCount)
  {
    points := [];
    var vx, vy := theory.vx, theory.vy;
    for i := 0 to sampleCount + 1
      invariant points + PredictionFrom(theory, gravity, sampleCount, i) == Prediction(theory, gravity, sampleCount)
    {
      var t := SampleTime(theory.totalTime, sampleCount, i);
      var point := PositionAt(vx, vy, gravity, t);
      if point.y < 0.0 {
        break;
      }
      assert PredictionFrom(theory, gravity, sampleCount, i)
          == [point] + PredictionFrom(theory, gravity, sampleCount, i + 1);
      points := points + [point];
    }
  }

  lemma {:induction false} PredictionFromIsSamplePrefix(theory: TheoryResult, gravity: real, n: nat, i: nat)
    requires n > 0 && i <= n + 1
    ensures var ps := PredictionFrom(theory, gravity, n, i);
      i + |ps| <= n + 1 &&
      (forall k :: 0 <= k < |ps| ==> ps[k] == Sample(theory, gravity, n, i + k) && ps[k].y >= 0.0) &&
      (i + |ps| <= n ==> Sample(theory, gravity, n, i + |ps|).y < 0.0)
    decreases n + 1 - i
  {
    if i <= n && Sample(theory, gravity, n, i).y >= 0.0 {
      PredictionFromIsSamplePrefix(theory, gravity, n, i + 1);
      var ps := PredictionFrom(theory, gravity, n, i);
      var rest := PredictionFrom(theory, gravity, n, i + 1);
      assert ps == [Sample(theory, gravity, n, i)] + rest;
      forall k | 0 <= k < |ps|
        ensures ps[k] == Sample(theory, gravity, n, i + k) && ps[k].y >= 0.0
      {
        if k > 0 { assert ps[k] == rest[k - 1]; }
      }
    }
  }

  /**
   * The reference path holds at most n + 1 points, none below ground, and is
   * exactly the run of samples before the first sample below ground.
   */
  lemma PredictionIsSamplePrefix(theory: TheoryResult, gravity: real, n: nat)
    requires n > 0
    ensures var ps := Prediction(theory, gravity, n);
      |ps| <= n + 1 &&
      (forall k :: 0 <= k < |ps| ==> ps[k] == Sample(theory, gravity, n, k) && ps[k].y >= 0.0) &&
      (|ps| <= n ==> Sample(theory, gravity, n, |ps|).y < 0.0)
  {
    PredictionFromIsSamplePrefix(theory, gravity, n, 0);
  }

  /** No point of the reference path is below ground. */
  lemma PredictionAboveGround(theory: TheoryResult, gravity: real, n: nat)
    requires n > 0
    ensures AboveGround(Prediction(theory, gravity, n))
  {
    PredictionIsSamplePrefix(theory, gravity, n);
  }

  /** The reference path starts at the origin, so it is never empty. */
  lemma PredictionStartsAtOrigin(theory: TheoryResult, gravity: real, n: nat)
    requires n > 0
    ensures |Prediction(theory, gravity, n)| >= 1 && Prediction(theory, gravity, n)[0] == Point(0.0, 0.0)
  {
    assert Sample(theory, gravity, n, 0) == Point(0.0, 0.0);
  }

  /** Sample times run from 0 to the flight time. */
  lemma SampleTimeInFlight(totalTime: real, n: nat, i: nat)
    requires n > 0 && i <= n && totalTime > 0.0
    ensures 0.0 <= SampleTime(totalTime, n, i) <= totalTime
  {
    var f := (i as real) / (n as real);
    assert 0.0 <= f <= 1.0;
    NonNegativeProduct(f, totalTime);
    NonNegativeProduct(1.0 - f, totalTime);
  }

  lemma {:induction false} PredictionFromComplete(p: LaunchParams, trig: Trig, n: nat, i: nat)
    requires ComputeTheory(p, trig).Some? && n > 0 && i <= n + 1
    ensures |PredictionFrom(ComputeTheory(p, trig).value, p.gravity, n, i)| == n + 1 - i
    decreases n + 1 - i
  {
    var th := ComputeTheory(p, trig).value;
    if i <= n {
      SampleTimeInFlight(th.totalTime, n, i);
      HeightNonNegativeInFlight(th.vx, th.vy, p.gravity, th.totalTime, SampleTime(th.totalTime, n, i));
      PredictionFromComplete(p, trig, n, i + 1);
    }
  }

  /**
   * With exact arithmetic and the launch's own gravity, no sample falls below
   * ground: the reference path holds all n + 1 samples and ends at the range.
   */
  lemma PredictionCompleteForLaunchGravity(p: LaunchParams, trig: Trig, n: nat)
    requires ComputeTheory(p, trig).Some? && n > 0
    ensures var th := ComputeTheory(p, trig).value;
      var ps := Prediction(th, p.gravity, n);
      |ps| == n + 1 && ps[n] == PositionAt(th.vx, th.vy, p.gravity, th.totalTime) && ps[n].y == 0.0
  {
    var th := ComputeTheory(p, trig).value;
    PredictionFromComplete(p, trig, n, 0);
    PredictionIsSamplePrefix(th, p.gravity, n);
    assert (n as real) / (n as real) == 1.0;
    FlightTimeReturnsToGround(p, trig);
  }

  // ---------------------------------------------------------------------
  // Velocity

  /** v_x(t) = v0x, v_y(t) = v0y - g t. */
  function CalculateVelocityAtTime(initialVelocity: Vector2D, time: real, gravity: real): Vector2D
  {
    Point(initialVelocity.x, initialVelocity.y - gravity * time)
  }

  /**
   * The velocity at time t agrees with the position at time t: the horizontal
   * component is constant, v_y(t)^2 = v0y^2 - 2 g y(t), and the squared speed
   * |v(t)|^2 = |v0|^2 - 2 g y(t) (energy is conserved).
   */
  lemma VelocityMatchesPosition(vx: real, vy: real, gravity: real, t: real)
    ensures var v := CalculateVelocityAtTime(Point(vx, vy), t, gravity);
      v.x == vx &&
      v.y * v.y == vy * vy - 2.0 * gravity * PositionAt(vx, vy, gravity, t).y &&
      v.x * v.x + v.y * v.y == vx * vx + vy * vy - 2.0 * gravity * PositionAt(vx, vy, gravity, t).y
  {
    var v := CalculateVelocityAtTime(Point(vx, vy), t, gravity);
    assert v.y * v.y == vy * vy - 2.0 * vy * gravity * t + gravity * gravity * t * t;
  }

  /**
   * Between two times the position changes by the elapsed time times the
   * velocity: the constant horizontal velocity, and the mean of the vertical
   * velocities at both ends (the acceleration is constant).
   */
  lemma DisplacementMatchesVelocity(vx: real, vy: real, gravity: real, t1: real, t2: real)
    ensures var v1 := CalculateVelocityAtTime(Point(vx, vy), t1, gravity);
      var v2 := CalculateVelocityAtTime(Point(vx, vy), t2, gravity);
      PositionAt(vx, vy, gravity, t2).x - PositionAt(vx, vy, gravity, t1).x == v1.x * (t2 - t1) &&
      PositionAt(vx, vy, gravity, t2).y - PositionAt(vx, vy, gravity, t1).y
        == 0.5 * (v1.y + v2.y) * (t2 - t1)
  {
    assert 0.5 * (2.0 * vy - gravity * (t1 + t2)) * (t2 - t1)
        == vy * (t2 - t1) - 0.5 * gravity * (t2 * t2 - t1 * t1);
  }

  // ---------------------------------------------------------------------
  // Canvas scale

  const MinScale: real := 4.0
  const MaxScale: real := 20.0

  /**
   * Pixels per metre: the largest scale that fits max(range, 10) across and
   * max(hMax, 5) upward into the usable canvas, kept within [4, 20].
   */
  function DeriveScale(range: real, hMax: real, canvasWidth: real, canvasHeight: real,
                       groundOffset: real, padding: real := 120.0): (scale: real)
    ensures MinScale <= scale <= MaxScale
  {
    var usableWidth := canvasWidth - padding;
    var usableHeight := canvasHeight - groundOffset - padding / 2.0;
    var scaleX := usableWidth / Max(range, 10.0);
    var scaleY := usableHeight / Max(hMax, 5.0);
    Clamp(Min(scaleX, scaleY), MinScale, MaxScale)
  }

  /**
   * Unless the lower bound 4 had to be imposed, the scaled range and peak
   * height fit into the usable canvas; unless the upper bound 20 had to be
   * imposed as well, one of them fills its dimension, so no larger scale fits.
   */
  lemma DeriveScaleFitsCanvas(range: real, hMax: real, canvasWidth: real, canvasHeight: real,
                              groundOffset: real, padding: real)
    requires (canvasWidth - padding) / Max(range, 10.0) >= MinScale
    requires (canvasHeight - groundOffset - padding / 2.0) / Max(hMax, 5.0) >= MinScale
    ensures var scale := DeriveScale(range, hMax, canvasWidth, canvasHeight, groundOffset, padding);
      Max(range, 10.0) * scale <= canvasWidth - padding &&
      Max(hMax, 5.0) * scale <= canvasHeight - groundOffset - padding / 2.0 &&
      // unless the upper bound 20 is imposed, one extent fills its dimension exactly
      (Min((canvasWidth - padding) / Max(range, 10.0),
           (canvasHeight - groundOffset - padding / 2.0) / Max(hMax, 5.0)) <= MaxScale ==>
         Max(range, 10.0) * scale == canvasWidth - padding ||
         Max(hMax, 5.0) * scale == canvasHeight - groundOffset - padding / 2.0)
  {
    var w, h := canvasWidth - padding, canvasHeight - groundOffset - padding / 2.0;
    var rw, rh := Max(range, 10.0), Max(hMax, 5.0);
    var scale := DeriveScale(range, hMax, canvasWidth, canvasHeight, groundOffset, padding);
    assert scale <= w / rw && scale <= h / rh;
    assert rw * (w / rw) == w;
    assert rh * (h / rh) == h;
    NonNegativeProduct(rw, w / rw - scale);
    NonNegativeProduct(rh, h / rh - scale);
  }

  // ---------------------------------------------------------------------
  // Targets

  /**
   * The range of the random target generator: x in [25, 55], width in
   * [5, 10], height in [6, 12] (upper bounds reachable through rounding to
   * one decimal).
   */
  predicate IsGeneratedTarget(t: Target)
  {
    25.0 <= t.x <= 55.0 && 5.0 <= t.width <= 10.0 && 6.0 <= t.height <= 12.0
  }

  /** The point lies in the target's horizontal span and in the band [0, height]. */
  predicate IsPointInsideTarget(point: Point, target: Target)
  {
    var withinX := point.x >= target.x && point.x <= target.x + target.width;
    var withinY := point.y >= 0.0 && point.y <= target.height;
    withinX && withinY
  }

  /** The ground corners of a target with non-negative extent are inside it. */
  lemma TargetGroundCornersInside(t: Target)
    requires t.width >= 0.0 && t.height >= 0.0
    ensures IsPointInsideTarget(Point(t.x, 0.0), t)
    ensures IsPointInsideTarget(Point(t.x + t.width, 0.0), t)
  {
  }

  /** Left of the target, right of it, below ground or above its height is outside. */
  lemma OutsideTarget(p: Point, t: Target)
    requires p.x < t.x || p.x > t.x + t.width || p.y < 0.0 || p.y > t.height
    ensures !IsPointInsideTarget(p, t)
  {
  }
}

=== FILE: simulation_store.dfy ===
/**
 * The simulation session: launch parameters, the current flight, the target
 * and the score, advanced by the setters, `Launch`, `Reset` and one
 * animation frame at a time by `StepSimulation`.
 *
 * The random target generator is not modelled as code: each step receives
 * the target the generator would draw (`draw`), and it is used only on a hit.
 */
module SimulationStore {
  import opened Physics

  /** The status message shown to the user, one constructor per message. */
  datatype ResultText = Initial | Rejected | Running | Hit | Miss

  /** What a step decides from the position at the new time. */
  datatype Verdict = Airborne | Scored | Missed

  /** Upper bound on the time one step may advance, in seconds. */
  const MaxStep: real := 0.04

  /** Number of intervals of the reference path. */
  const PredictionSamples: nat := 60

  /** Flight time after one step: the elapsed delta, capped at `MaxStep`. */
  function NextTime(time: real, delta: real): (next: real)
    ensures next - time <= MaxStep
    ensures next - time <= delta
    ensures delta <= MaxStep ==> next == time + delta
    ensures delta >= MaxStep ==> next == time + MaxStep
  {
    time + Min(delta, MaxStep)
  }

  /**
   * The decision of a step whose raw (unclamped) position at `nextTime` is
   * (x, rawY): a mid-air hit at the clamped point while rawY >= 0, a landing
   * when rawY <= 0 at a positive time, and, once either ends the flight, a
   * second hit test at ground level (x, 0).
   */
  function Judge(x: real, rawY: real, nextTime: real, target: Target): (v: Verdict)
    ensures v == Scored ==> target.x <= x <= target.x + target.width
    ensures v == Missed <==> rawY <= 0.0 && nextTime > 0.0 && !IsPointInsideTarget(Point(x, 0.0), target)
    ensures v == Airborne <==>
      (rawY > 0.0 || nextTime <= 0.0) && !(rawY >= 0.0 && IsPointInsideTarget(Point(x, rawY), target))
  {
    var point := Point(x, Max(rawY, 0.0));
    var midAirHit := rawY >= 0.0 && IsPointInsideTarget(point, target);
    var landed := rawY <= 0.0 && nextTime > 0.0;
    if midAirHit || landed then
      if midAirHit || IsPointInsideTarget(Point(x, 0.0), target) then Scored else Missed
    else Airborne
  }

  /** A landing inside the horizontal span of a target of non-negative height always scores. */
  lemma LandingInFootprintScores(x: real, rawY: real, nextTime: real, target: Target)
    requires target.height >= 0.0
    requires rawY <= 0.0 && nextTime > 0.0
    requires target.x <= x <= target.x + target.width
    ensures Judge(x, rawY, nextTime, target) == Scored
  {
  }

  /**
   * When gravity has not changed since launch, a step that reaches the
   * theory's flight time ends the flight.
   */
  lemma FlightEndsByFlightTime(p: LaunchParams, trig: Trig, nextTime: real, target: Target)
    requires ComputeTheory(p, trig).Some?
    requires nextTime >= ComputeTheory(p, trig).value.totalTime
    ensures var th := ComputeTheory(p, trig).value;
      var raw := PositionAt(th.vx, th.vy, p.gravity, nextTime);
      Judge(raw.x, raw.y, nextTime, target) != Airborne
  {
    var th := ComputeTheory(p, trig).value;
    HeightNonPositiveAfterFlight(th.vx, th.vy, p.gravity, th.totalTime, nextTime);
  }

  class Store {
    /** Sine and cosine used by the theory calculator. */
    const trig: Trig

    var angle: real
    var speed: real
    var gravity: real
    var level: int
    var success: int
    var target: Target
    var launched: bool
    var velocity: Point
    var time: real
    var theory: Option<TheoryResult>
    var prediction: seq<Point>
    var trail: seq<Point>
    var projectile: Point
    var resultText: ResultText

    /**
     * Parameters stay in the setters' ranges, every hit raises level and
     * success together, a flight always has a theory, outside a flight the
     * time is 0 (given a sine positive on (0, 180) degrees, under which no
     * launch is rejected), and nothing shown is below ground.
     */
    ghost predicate Valid()
      reads this
    {
      5.0 <= angle <= 85.0 && 5.0 <= speed <= 90.0 && 1.0 <= gravity <= 25.0 &&
      0 <= success && level == success + 1 &&
      IsGeneratedTarget(target) &&
      (launched ==> theory.Some?) &&
      (SinePositiveOnHalfTurn(trig) && !launched ==> time == 0.0) &&
      (theory.Some? ==> theory.value.totalTime > 0.0) &&
      projectile.y >= 0.0 &&
      AboveGround(trail) && AboveGround(prediction)
    }

    function Params(): LaunchParams
      reads this
    {
      LaunchParams(angle, speed, gravity)
    }

    /** The initial session, with a target drawn by the generator. */
    constructor (trig: Trig, initialTarget: Target)
      requires IsGeneratedTarget(initialTarget)
      ensures Valid()
      ensures this.trig == trig
      ensures angle == 45.0 && speed == 30.0 && gravity == 9.8
      ensures level == 1 && success == 0 && target == initialTarget
      ensures !launched && velocity == Point(0.0, 0.0) && time == 0.0 && theory == None
      ensures prediction == [] && trail == [] && projectile == Point(0.0, 0.0)
      ensures resultText == Initial
    {
      this.trig := trig;
      angle, speed, gravity := 45.0, 30.0, 9.8;
      level, success := 1, 0;
      target := initialTarget;
      launched := false;
      velocity := Point(0.0, 0.0);
      time := 0.0;
      theory := None;
      prediction, trail := [], [];
      projectile := Point(0.0, 0.0);
      resultText := Initial;
    }

    method SetAngle(value: real)
      requires Valid()
      modifies this`angle
      ensures Valid()
      ensures angle == Clamp(value, 5.0, 85.0)
    {
      angle := Clamp(value, 5.0, 85.0);
    }

    method SetSpeed(value: real)
      requires Valid()
      modifies this`speed
      ensures Valid()
      ensures speed == Clamp(value, 5.0, 90.0)
    {
      speed := Clamp(value, 5.0, 90.0);
    }

    method SetGravity(value: real)
      requires Valid()
      modifies this`gravity
      ensures Valid()
      ensures gravity == Clamp(value, 1.0, 25.0)
    {
      gravity := Clamp(value, 1.0, 25.0);
    }

    /**
     * Starts a flight from the current parameters, or reports them invalid
     * and changes nothing but the flight flag and the message.
     */
    method Launch()
      requires Valid()
      modifies this`theory, this`prediction, this`launched, this`time, this`velocity,
               this`trail, this`projectile, this`resultText
      ensures Valid()
      ensures ComputeTheory(Params(), trig).None? ==>
        !launched && resultText == Rejected &&
        theory == old(theory) && prediction == old(prediction) && time == old(time) &&
        velocity == old(velocity) && trail == old(trail) && projectile == old(projectile)
      ensures ComputeTheory(Params(), trig).Some? ==>
        var th := ComputeTheory(Params(), trig).value;
        launched && resultText == Running && theory == Some(th) &&
        prediction == Prediction(th, gravity, PredictionSamples) &&
        time == 0.0 && velocity == Point(th.vx, th.vy) &&
        trail == [] && projectile == Point(0.0, 0.0)
      ensures SinePositiveOnHalfTurn(trig) ==> launched
    {
      var th := ComputeTheory(LaunchParams(angle, speed, gravity), trig);
      if SinePositiveOnHalfTurn(trig) {
        TheoryDefinedForValidParameters(Params(), trig);
      }
      if th.None? {
        launched := false;
        resultText := Rejected;
        return;
      }
      var points := BuildPrediction(th.value, gravity, PredictionSamples);
      BeginFlight(th.value, points);
    }

    /** Installs a valid theory and its reference path and starts the flight at the origin. */
    method BeginFlight(th: TheoryResult, points: seq<Point>)
      requires Valid()
      requires th.totalTime > 0.0 && points == Prediction(th, gravity, PredictionSamples)
      modifies this`theory, this`prediction, this`launched, this`time, this`velocity,
               this`trail, this`projectile, this`resultText
      ensures Valid()
      ensures launched && resultText == Running && theory == Some(th) && prediction == points
      ensures time == 0.0 && velocity == Point(th.vx, th.vy) && trail == [] && projectile == Point(0.0, 0.0)
    {
      PredictionAboveGround(th, gravity, PredictionSamples);
      theory := Some(th);
      prediction := points;
      launched := true;
      time := 0.0;
      velocity := Point(th.vx, th.vy);
      trail := [];
      projectile := Point(0.0, 0.0);
      resultText := Running;
    }

    /** Ends any flight and clears it; target, score and parameters stay. */
    method Reset()
      requires Valid()
      modifies this`launched, this`time, this`theory, this`prediction, this`trail,
               this`projectile, this`resultText
      ensures Valid()
      ensures !launched && time == 0.0 && theory == None
      ensures prediction == [] && trail == [] && projectile == Point(0.0, 0.0)
      ensures resultText == Initial
    {
      launched := false;
      time := 0.0;
      theory := None;
      prediction := [];
      trail := [];
      projectile := Point(0.0, 0.0);
      resultText := Initial;
    }

    /**
     * Advances the flight by `delta` seconds (at most `MaxStep`), evaluating
     * the position in closed form at the new time with the current gravity.
     * `draw` is the target the generator produces if this step scores.
     */
    method StepSimulation(delta: real, draw: Target)
      requires Valid()
      requires IsGeneratedTarget(draw)
      modifies this`projectile, this`trail, this`launched, this`level, this`success,
               this`target, this`resultText, this`prediction, this`time, this`velocity
      ensures Valid()
      ensures !old(launched) ==> unchanged(this)
      ensures old(launched) ==>
        var th := old(theory).value;
        var nextTime := NextTime(old(time), delta);
        var raw := PositionAt(th.vx, th.vy, gravity, nextTime);
        var verdict := Judge(raw.x, raw.y, nextTime, old(target));
        projectile == Point(raw.x, Max(raw.y, 0.0)) &&
        trail == (if raw.y >= 0.0 then old(trail) + [raw] else old(trail)) &&
        (verdict == Airborne ==>
          launched && time == nextTime &&
          velocity == CalculateVelocityAtTime(th.initialVelocity, nextTime, gravity) &&
          target == old(target) && level == old(level) && success == old(success) &&
          prediction == old(prediction) && resultText == old(resultText)) &&
        (verdict != Airborne ==> !launched && time == 0.0 && velocity == Point(0.0, 0.0)) &&
        (verdict == Scored ==>
          target == draw && level == old(level) + 1 && success == old(success) + 1 &&
          prediction == [] && resultText == Hit) &&
        (verdict == Missed ==>
          target == old(target) && level == old(level) && success == old(success) &&
          prediction == old(prediction) && resultText == Miss)
    {
      if !launched || theory.None? {
        return;
      }
      var th := theory.value;
      var dt := Min(delta, MaxStep);
      var nextTime := time + dt;
      var raw := PositionAt(th.vx, th.vy, gravity, nextTime);
      var x, rawY := raw.x, raw.y;
      var clampedY := Max(rawY, 0.0);
      var point := Point(x, clampedY);
      if rawY >= 0.0 {
        trail := trail + [Point(x, rawY)];
      }
      projectile := point;
      time := nextTime;
      velocity := CalculateVelocityAtTime(th.initialVelocity, nextTime, gravity);

      var midAirHit := rawY >= 0.0 && IsPointInsideTarget(point, target);
      var landed := rawY <= 0.0 && nextTime > 0.0;
      ghost var verdict := Judge(x, rawY, nextTime, target);
      assert verdict == Airborne <==> !(midAirHit || landed);
      if midAirHit || landed {
        var hit := midAirHit || IsPointInsideTarget(Point(x, 0.0), target);
        assert verdict == (if hit then Scored else Missed);
        EndFlight(hit, draw);
      }
    }

    /**
     * Ends the current flight where the projectile stands: on a hit the
     * reference path is removed, the new target installed and the score
     * raised; on a miss only the message changes besides the flight state.
     */
    method EndFlight(hit: bool, draw: Target)
      requires Valid()
      requires IsGeneratedTarget(draw)
      modifies this`launched, this`time, this`prediction, this`velocity,
               this`target, this`level, this`success, this`resultText
      ensures Valid()
      ensures !launched && time == 0.0 && velocity == Point(0.0, 0.0)
      ensures hit ==>
        target == draw && level == old(level) + 1 && success == old(success) + 1 &&
        prediction == [] && resultText == Hit
      ensures !hit ==>
        target == old(target) && level == old(level) && success == old(success) &&
        prediction == old(prediction) && resultText == Miss
    {
      launched := false;
      time := 0.0;
      prediction := if hit then [] else prediction;
      velocity := Point(0.0, 0.0);
      if hit {
        target := draw;
        level := level + 1;
        success := success + 1;
        resultText := Hit;
      } else {
        resultText := Miss;
      }
    }
  }

  /** Total flight time advanced by the first k frames: each frame's delta, capped at `MaxStep`. */
  function CappedTotal(deltas: seq<real>, k: nat): real
    requires k <= |deltas|
  {
    if k == 0 then 0.0 else CappedTotal(deltas, k - 1) + Min(deltas[k - 1], MaxStep)
  }

  /**
   * The animation driver: one step per frame, with that frame's elapsed
   * time, for as long as the flight lasts. `draws[k]` is the target the
   * generator would produce at frame k. While the flight lasts the flight
   * time is the starting time plus the capped deltas. When the theory was
   * computed with the current parameters and the capped deltas reach its
   * flight time, the flight has ended.
   */
  method Animate(store: Store, deltas: seq<real>, draws: seq<Target>) returns (frames: nat)
    requires store.Valid()
    requires |draws| == |deltas|
    requires forall k :: 0 <= k < |draws| ==> IsGeneratedTarget(draws[k])
    modifies store
    ensures store.Valid()
    ensures frames <= |deltas|
    ensures store.launched ==> frames == |deltas| && store.time == old(store.time) + CappedTotal(deltas, frames)
    ensures 0 <= store.level - old(store.level) == store.success - old(store.success) <= 1
    ensures store.level > old(store.level) ==> !store.launched
    ensures store.Params() == old(store.Params()) && store.theory == old(store.theory)
    ensures old(store.theory).Some? && old(store.theory) == ComputeTheory(old(store.Params()), store.trig) &&
            |deltas| > 0 && old(store.time) + CappedTotal(deltas, |deltas|) >= old(store.theory).value.totalTime
            ==> !store.launched
  {
    ghost var params, theory0, time0, level0 := store.Params(), store.theory, store.time, store.level;
    ghost var current := store.theory == ComputeTheory(params, store.trig);
    frames := 0;
    while frames < |deltas| && store.launched
      invariant frames <= |deltas|
      invariant store.Valid()
      invariant store.Params() == params && store.theory == theory0
      invariant 0 <= store.level - level0 == store.success - old(store.success) <= 1
      invariant store.level > level0 ==> !store.launched
      invariant store.launched ==> store.time == time0 + CappedTotal(deltas, frames)
      invariant store.launched && current && frames > 0 ==> store.time < store.theory.value.totalTime
      decreases |deltas| - frames
    {
      StepOnce(store, params, deltas[frames], draws[frames]);
      frames := frames + 1;
    }
  }

  /** One frame of the driver, with the facts the driver's loop needs. */
  method StepOnce(store: Store, ghost params: LaunchParams, delta: real, draw: Target)
    requires store.Valid() && store.launched && IsGeneratedTarget(draw)
    requires store.Params() == params
    modifies store
    ensures store.Valid()
    ensures store.Params() == params && store.theory == old(store.theory)
    ensures 0 <= store.level - old(store.level) == store.success - old(store.success) <= 1
    ensures store.level > old(store.level) ==> !store.launched
    ensures store.launched ==> store.time == NextTime(old(store.time), delta)
    ensures store.launched && store.theory == ComputeTheory(params, store.trig) ==>
      store.time < store.theory.value.totalTime
  {
    var th := store.theory.value;
    var nextTime := NextTime(store.time, delta);
    if store.theory == ComputeTheory(params, store.trig) && nextTime >= th.totalTime {
      FlightEndsByFlightTime(params, store.trig, nextTime, store.target);
    }
    store.StepSimulation(delta, draw);
  }
}
